=== FILE: README.md ===
# Trip planner page logic, modelled in Dafny

This project models the bookkeeping of a budget-travel planning web client. Users create trips with a budget. They attach dated activities with costs, and the client tracks spend against the budget. The logic lives in four page components:

- **TripOverview** holds the trip list, the selected trip and the selected trip's activities. When activities are fetched, it sums their costs and patches that total into the trip's `spent` field, both in the list and in the selection. It groups the activities by date. It shows the remaining budget and the share used. It also deletes trips and goes back to the list.
- **HomePage** loads the trips when a token is stored. It deletes trips and maps a failed delete's HTTP status to one of three messages. It routes "start planning" to the planner or to the login page.
- **PlanTrip** edits the trip form. It checks the four required fields, then sends the payload as a PUT (edit mode) or a POST (add mode).
- **AddActivity** fills the activity form, redirects when no trip was passed in, and sends the form plus the trip id as a PUT or a POST.

Every remote call appears as a parameter of type `Response<T>`: either `Ok(body)` or `Failed(status)`. The status is `None` when no response arrived. The same goes for the user's confirmation and for the error text of a failed request. All state is immutable. A page's state is a datatype, and each handler or effect is a function from the old state to the new one.

JavaScript details that matter are written out:
- Falsiness: `FormValue.Truthy` treats `""` and `0` as falsy. A stored token counts only when it is a non-empty string. `selectedTrip?.id` counts only when the id is non-zero.
- `act.cost || 0` and `activity.date || "No Date"`.
- The JavaScript object's insertion-ordered keys, which hold the date groups.
- The `undefined` route id inside a template literal.
- The decimal text of a numeric id inside a URL.

Modules: `Records` (shared data), `Spend` (cost total), `Store` (patching and removing trips), `Grouping`, `Budget`, `Overview`, `Home`, `PlanTrip`, `AddActivity`, `Decimal` (integer to text), `Refetch` (the selection effect's identity cycle) and `Scenarios` (worked examples).

Points of the code that the model keeps as they are:
- When the activity fetch fails, the code empties the activity list and logs to the console. It sets no error, so `Overview.ActivitiesLoaded` sets none. `Overview.EmptyFetchVersusFailure` shows the only difference from an empty success: the selected trip's `spent` is kept instead of being set to 0.
- The code has no guard against stale responses. A fetch that resolves after the selection changed is still applied. The model has no such guard either.
- Both delete handlers filter the trip list captured when the button was clicked, and the overview's handler also tests the selection captured then. `Home.DeleteTrip` and `Overview.DeleteTrip` take that snapshot as parameters. Overlapping deletes can therefore bring a deleted trip back, and a trip opened during its own DELETE stays selected (see "## Findings"). `Home.DeleteTripLatest` and `Overview.DeleteTripLatest` read the current state instead.
- Clearing the selection clears the activities only through the selection effect. `Overview.Unselect` folds that effect in.

## Model

| member | source | states |
|---|---|---|
| Spend.TotalSpent | src/pages/TripOverview/TripOverview.jsx:57-61 | the left-to-right reduce over the fetched activities equals the reference sum of costs (missing cost as 0); an empty list gives 0 |
| Spend.CostSumAppend | src/pages/TripOverview/TripOverview.jsx:61 | the total of two concatenated activity lists is the sum of their totals |
| Spend.CostSumNonNegative | src/pages/TripOverview/TripOverview.jsx:61 | with no negative cost, the total spent is never negative |
| Store.PatchSpent | src/pages/TripOverview/TripOverview.jsx:64-66 | the patched list keeps its length, order and ids; trips with id `tripId` get exactly `spent := total`, all others are unchanged |
| Store.PatchSpentKeepsOtherFields | src/pages/TripOverview/TripOverview.jsx:64-66 | patching changes no field of any trip except `spent` |
| Store.PatchSpentIdempotent | src/pages/TripOverview/TripOverview.jsx:64-66 | applying the same total twice gives the same list as applying it once |
| Store.PatchSpentUnknownId | src/pages/TripOverview/TripOverview.jsx:64-66 | a trip id that matches no trip leaves the list unchanged: nothing is inserted and no error occurs |
| Store.PatchSpentKeepsUniqueIds | src/pages/TripOverview/TripOverview.jsx:64-66 | a list with unique ids keeps them unique after patching |
| Store.PatchSelected | src/pages/TripOverview/TripOverview.jsx:69 | the selection gets the new total only when it exists and its id equals `tripId`; otherwise it is returned unchanged; only `spent` ever changes |
| Store.PatchSelectedIdempotent | src/pages/TripOverview/TripOverview.jsx:69 | patching the selection twice with the same total equals patching it once |
| Store.PatchKeepsSelectionInSync | src/pages/TripOverview/TripOverview.jsx:64-69 | a selection equal to list entry k is still equal to entry k after both are patched |
| Store.RemoveTrip | src/pages/TripOverview/TripOverview.jsx:89 | the filtered list holds exactly the trips whose id differs from the deleted one |
| Store.RemoveTripAppend | src/pages/TripOverview/TripOverview.jsx:89 | removal distributes over concatenation, so the survivors keep their original order |
| Store.RemoveUnknownTrip | src/pages/TripOverview/TripOverview.jsx:89 | deleting an id no trip has leaves the list unchanged |
| Store.RemoveExistingTrip | src/pages/TripOverview/TripOverview.jsx:89 | with unique ids, deleting an existing trip shortens the list by exactly one |
| Store.RemoveTripKeepsUniqueIds | src/pages/TripOverview/TripOverview.jsx:89 | removal keeps the ids of the remaining trips unique |
| Store.RemoveTripCommutes | src/pages/TripOverview/TripOverview.jsx:89 | removing two ids gives the same list in either order |
| Store.PatchAfterRemoveIsNoOp | src/pages/TripOverview/TripOverview.jsx:64-66 | a spend total that arrives after its trip was deleted does not bring the trip back or change the list |
| Overview.TripsLoaded | src/pages/TripOverview/TripOverview.jsx:41-52 | a successful trip fetch replaces the list; a failure sets "Failed to load trips" and keeps the list; loading ends either way; selection and activities are untouched |
| Overview.SelectionEffect | src/pages/TripOverview/TripOverview.jsx:33-39 | a selection with a truthy id fetches that trip's activities; no selection or id 0 clears the activities |
| Overview.ActivitiesLoaded | src/pages/TripOverview/TripOverview.jsx:54-74 | a success stores the response data (or [] when there is none) and patches its cost total into every list trip with that id and into a matching selection, keeping everything else; a failure empties the activities and leaves list and selection unchanged |
| Overview.ActivitiesLoadedKeepsInSync | src/pages/TripOverview/TripOverview.jsx:54-74 | if the selection equals some list entry before an activity fetch resolves, it still does afterwards |
| Overview.ActivitiesLoadedIdempotent | src/pages/TripOverview/TripOverview.jsx:54-74 | applying the same fetch result twice yields the same page state as once |
| Overview.EmptyFetchVersusFailure | src/pages/TripOverview/TripOverview.jsx:57-73 | an empty successful fetch sets the selected trip's spent to 0; a failed fetch keeps the previous spent; both leave no activities |
| Overview.FirstLoad | src/pages/TripOverview/TripOverview.jsx:11-52 | from the initial state, the first trip fetch shows its list with nothing selected, or the load error over an empty list; loading ends and the selection is in sync either way |
| Overview.TripsLoadedKeepsInSync | src/pages/TripOverview/TripOverview.jsx:41-52 | a failed trip fetch keeps the selection equal to a list entry, and so does a successful one whose list still holds the selected trip |
| Overview.RunSelectionEffect | src/pages/TripOverview/TripOverview.jsx:33-39 | with no selection or a selection whose id is 0, the effect only clears the activities; otherwise the state is exactly the result of that trip's activity fetch resolving |
| Overview.Select | src/pages/TripOverview/TripOverview.jsx:21-39 | selecting nothing, or a trip with id 0, leaves that selection and no activities. Selecting a trip with an id and a successful fetch shows that fetch's activities and puts their total into the selection's spent and into every list entry with that id. A failed fetch leaves the selection as given, the list unchanged and no activities. Loading and error are never touched |
| Overview.ViewFromListKeepsInSync | src/pages/TripOverview/TripOverview.jsx:165 | viewing a trip from the list leaves the selection equal to its list entry, whatever the activity fetch returns |
| Overview.Unselect | src/pages/TripOverview/TripOverview.jsx:90-92 | clearing a held selection also clears the activities, through the selection effect; clearing an empty selection changes nothing |
| Overview.DeleteTrip | src/pages/TripOverview/TripOverview.jsx:85-97 | as written: a declined confirmation changes nothing, and a failed delete changes nothing and alerts "Failed to delete trip". A successful one installs the click-time list without the trip. It clears the selection only when the click-time selection had that id; otherwise selection and activities are kept |
| Overview.DeleteDuringViewLeavesStaleSelection | src/pages/TripOverview/TripOverview.jsx:85-97 | a delete clicked in the list view whose trip is opened before the DELETE resolves leaves that trip selected but no longer listed |
| Overview.DeleteTripLatest | src/pages/TripOverview/TripOverview.jsx:85-97 | corrected delete: the same outcomes and alert, but it filters the current list and clears the current selection when it has the deleted id |
| Overview.DeleteTripAgreesWhenCurrent | src/pages/TripOverview/TripOverview.jsx:85-97 | when the captured list and selection are still current, the handler as written and the corrected one give the same outcome |
| Overview.DeleteTripKeepsInSync | src/pages/TripOverview/TripOverview.jsx:85-97 | after a corrected delete, a remaining selection still equals an entry of the list |
| Overview.BackThenEffect | src/pages/TripOverview/TripOverview.jsx:33-39 | the selection effect fired by going back only clears the activities again, so going back is exactly `Overview.Back` |
| Overview.UnselectIsSelectNone | src/pages/TripOverview/TripOverview.jsx:33-39 | clearing a held selection equals selecting nothing and letting the selection effect run |
| Overview.Back | src/pages/TripOverview/TripOverview.jsx:114-118 | going back clears the selection and the activities and keeps the trip list |
| Grouping.DateKey | src/pages/TripOverview/TripOverview.jsx:124 | the group key is the activity's date, or "No Date" when the date is missing or empty |
| Grouping.GroupByDate | src/pages/TripOverview/TripOverview.jsx:121-129 | the grouping partitions the activities (`GroupsOf`). There is one group per date that occurs, with distinct keys. Each group holds exactly its activities, in input order. Keys come in order of first occurrence. The group sizes add up to the number of activities |
| Grouping.GroupOfGroups | src/pages/TripOverview/TripOverview.jsx:121-129 | folding the activities one by one builds exactly that partition |
| Grouping.GroupSizesSumToLength | src/pages/TripOverview/TripOverview.jsx:121-129 | every activity lands in exactly one group: the group sizes sum to the list length |
| Budget.PatchedPercentageNonNegative | src/pages/TripOverview/TripOverview.jsx:61-69 | a selection whose spent was just recomputed from activities with no negative cost shows a percentage of at least 0 |
| Budget.MetricsOf | src/pages/TripOverview/TripOverview.jsx:132-135 | remaining is budget minus spent and may be negative. Percentage is at most 100. It is 0 when the budget is not positive, 100 when spent reaches the budget, and otherwise the exact proportion. It is at least 0 when spent is. With no selection, all four figures are 0 |
| Scenarios.ThreeActivities | src/pages/TripOverview/TripOverview.jsx:121-129 | two activities dated 2024-01-01 and one undated give the groups "2024-01-01" then "No Date", of sizes 2 and 1, and a total of 2300 |
| Scenarios.OverSpentTrip | src/pages/TripOverview/TripOverview.jsx:132-135 | a budget of 10000 reconciled with a spend of 12000 gives remaining -2000 and percentage 100 |
| Refetch.PatchHeldAsWritten | src/pages/TripOverview/TripOverview.jsx:69 | as written, a matching selection is always replaced by a new object, so its identity changes |
| Refetch.AsWrittenNeverSettles | src/pages/TripOverview/TripOverview.jsx:33-39 | as written, the selection effect is due again after every run, so n runs send n activity requests |
| Refetch.AsWrittenExample | src/pages/TripOverview/TripOverview.jsx:33-39 | with trip 1 selected and one activity of cost 500, three runs send three requests and a fourth is due |
| Refetch.PatchHeld | src/pages/TripOverview/TripOverview.jsx:69 | corrected patch: the same selected value, but the object is kept when `spent` already equals the total |
| Refetch.CorrectedSettles | src/pages/TripOverview/TripOverview.jsx:33-39 | with the corrected patch, the effect settles after at most two runs, sends at most two requests, and stays settled |
| Refetch.CorrectionAgreesOnValues | src/pages/TripOverview/TripOverview.jsx:69 | the corrected and as-written patches hold the same selected trip, the one `Overview.ActivitiesLoaded` computes |
| Home.Mount | src/pages/Home/HomePage.jsx:17-23 | with a token the trips are fetched; without one only loading becomes false |
| Home.MountWithoutTokenIgnoresFetch | src/pages/Home/HomePage.jsx:17-23 | without a token the page does not depend on any fetch outcome, because no request is made |
| Home.TripsFetched | src/pages/Home/HomePage.jsx:25-36 | a success replaces the list and clears the error; a failure sets the load message and keeps the list; loading ends either way |
| Home.StartPlanning | src/pages/Home/HomePage.jsx:38-44 | start planning leads to /plantrip exactly when a token exists, and to /login exactly when none does |
| Home.DeleteErrorMessage | src/pages/Home/HomePage.jsx:57-64 | status 500 gives the server-error message, 401 or 403 the permission message, and any other status or no response the generic one; each holds in both directions |
| Home.MountFromInitial | src/pages/Home/HomePage.jsx:10-36 | from the initial state, no token gives an empty list and no loading; a token gives the fetched list with no error, or the load error over an empty list |
| Home.TripsFetchedKeepsUniqueIds | src/pages/Home/HomePage.jsx:25-36 | a failed fetch keeps a list with unique ids, and a successful one installs the fetched list, so ids stay unique when the fetched list has them |
| Home.DeleteTrip | src/pages/Home/HomePage.jsx:46-66 | as written: a declined confirmation changes nothing. A successful delete installs the click-time list without the trip and clears the error. A failure keeps the list and sets the status-specific message |
| Home.OverlappingDeletesResurrect | src/pages/Home/HomePage.jsx:52 | with trips A, B, C and deletes of A and B clicked in the same render, A's success leaves B, C, and B's success then shows A, C: the deleted A is back |
| Home.DeleteTripLatest | src/pages/Home/HomePage.jsx:46-66 | corrected delete: the same outcomes, but it filters the current list, so no trip is ever added |
| Home.DeleteTripAgreesWhenCurrent | src/pages/Home/HomePage.jsx:46-66 | when the captured list is still current, the handler as written and the corrected one agree |
| Home.OverlappingDeletesBothRemoved | src/pages/Home/HomePage.jsx:52 | with the corrected handler, two overlapping deletes give the same list in either order, and neither trip remains |
| Home.DeleteTripLatestKeepsUniqueIds | src/pages/Home/HomePage.jsx:52 | the corrected delete keeps the ids of the list unique |
| PlanTrip.Change | src/pages/PlanTrip/PlanTrip.jsx:37-40 | a change event sets only the named field to the typed text; every other field is unchanged |
| PlanTrip.ChangeIdempotent | src/pages/PlanTrip/PlanTrip.jsx:37-40 | typing the same text into a field twice is the same as once |
| PlanTrip.ChangeCommutes | src/pages/PlanTrip/PlanTrip.jsx:37-40 | changes to two different fields can be made in either order |
| PlanTrip.CompleteIffFourFields | src/pages/PlanTrip/PlanTrip.jsx:60 | the required-field check `Complete` holds exactly when destination, start date, end date and budget are all truthy |
| PlanTrip.FormOfTripComplete | src/pages/PlanTrip/PlanTrip.jsx:60 | a loaded trip passes the check exactly when its destination and dates are non-empty and its budget is non-zero |
| PlanTrip.FormOfTrip | src/pages/PlanTrip/PlanTrip.jsx:26 | a loaded trip fills the form with its own destination, dates (as text) and budget (as a number) |
| PlanTrip.LoadForEdit | src/pages/PlanTrip/PlanTrip.jsx:21-35 | only edit mode with a route id fetches: success fills the form, failure sets "Failed to load trip data", loading ends; otherwise nothing changes |
| PlanTrip.ZeroBudgetBlocksEditSave | src/pages/PlanTrip/PlanTrip.jsx:60 | a trip loaded with budget 0 fails the required-field check, since the number 0 is falsy |
| PlanTrip.Payload | src/pages/PlanTrip/PlanTrip.jsx:66-74 | the payload holds the four fields in order under their input names, plus an `image` entry exactly when an image was chosen |
| PlanTrip.SaveTrip | src/pages/PlanTrip/PlanTrip.jsx:54-84 | an incomplete form sets the required-fields error, ends loading and sends no request. Otherwise the request is PUT exactly in edit mode and POST otherwise. It goes to `/{id}` under the trips address exactly in edit mode and carries the payload |
| PlanTrip.EditRoundTrip | src/pages/PlanTrip/PlanTrip.jsx:21-84 | a trip loaded by its route id and saved unchanged is sent back as a PUT to that id's address with the loaded values as payload; a trip with an empty or zero field is not sent |
| PlanTrip.RetryAfterFailedSave | src/pages/PlanTrip/PlanTrip.jsx:54-93 | a failed save keeps the form, so pressing save again sends the same request |
| PlanTrip.AddModeStartsEmpty | src/pages/PlanTrip/PlanTrip.jsx:12-64 | a new trip starts with every field empty; add mode loads nothing, and saving the untouched form sends no request and shows the required-fields message |
| PlanTrip.SaveFinished | src/pages/PlanTrip/PlanTrip.jsx:86-93 | success alerts "updated" (edit) or "created" (add) and navigates to /tripoverview; failure shows "Failed to save trip: " plus the detail and stays |
| AddActivity.InitialForm | src/pages/AddActivity/AddActivity.jsx:10-17 | the form copies the edited activity's fields, using "" for missing text and 0 for a missing cost; with nothing to edit all text is "" and cost 0 |
| AddActivity.Change | src/pages/AddActivity/AddActivity.jsx:27-30 | a change event sets only the named field; every other field is unchanged |
| AddActivity.ChangeIdempotent | src/pages/AddActivity/AddActivity.jsx:27-30 | typing the same text into a field twice is the same as once |
| AddActivity.ChangeCommutes | src/pages/AddActivity/AddActivity.jsx:27-30 | changes to two different fields can be made in either order |
| AddActivity.NonEmpty | src/pages/AddActivity/AddActivity.jsx:10-17 | reading an empty text as missing undoes the `|| ""` default |
| AddActivity.Redirect | src/pages/AddActivity/AddActivity.jsx:23-25 | the page redirects to /tripoverview exactly when no trip was handed over |
| AddActivity.ActivityUrl | src/pages/AddActivity/AddActivity.jsx:40 | an activity's address extends the activities address |
| AddActivity.ActivityUrlInjective | src/pages/AddActivity/AddActivity.jsx:40 | different activity ids give different PUT addresses |
| AddActivity.Submit | src/pages/AddActivity/AddActivity.jsx:37-50 | a request is sent exactly when a trip exists. It is PUT to the edited activity's address exactly when editing and POST to the collection otherwise. In both cases the body is the form plus `tripId` = the trip's id |
| AddActivity.EditUnchangedRoundTrip | src/pages/AddActivity/AddActivity.jsx:10-50 | saving an edit form left as initialised sends a PUT to the activity's own address whose body reads back as the activity itself, now owned by the trip handed over |
| AddActivity.SubmitFinished | src/pages/AddActivity/AddActivity.jsx:37-59 | the page navigates to /tripoverview carrying the trip exactly when a trip was handed over and its request succeeded; any failure, including a missing trip (no request is sent), shows "Failed to save activity: " plus the detail |
| AddActivity.SavedActivityShowsItsTrip | src/pages/AddActivity/AddActivity.jsx:37-53 | after a successful save the page navigates exactly when a request was sent, and the overview opens on the trip whose id the request carried |
| Decimal.NatToString | src/pages/AddActivity/AddActivity.jsx:40 | the decimal text of a number is non-empty, all digits, "0" for 0, and has no leading zero otherwise |
| Decimal.NatRoundTrip | src/pages/AddActivity/AddActivity.jsx:40 | reading back the decimal text of a number id gives the id |
| Decimal.IntToString | src/pages/AddActivity/AddActivity.jsx:40 | the decimal text of an id is non-empty and starts with '-' exactly when the id is negative |
| Decimal.IntToStringInjective | src/pages/AddActivity/AddActivity.jsx:40 | different integer ids have different decimal texts |

## Left out

- Budget.MetricsOf: the lower bound 0 on the percentage is stated only when spent is not negative. The code caps only at 100, and spent is non-negative only because the cost input has `min="0"`.
- `handleDeleteActivity` (TripOverview.jsx:99-112) is not modelled. It starts a re-fetch without awaiting it, alongside a trip GET, so its outcome depends on how the two responses interleave.
- There is no stale-response guard, because the code has none. A late activity fetch is applied to whatever is selected; `Store.PatchSpentUnknownId` covers the case where its trip has gone.
- Rendering, styles, icons and display formatting (`toLocaleString`, `Math.round`) are presentation only.
- HTTP transport, `FormData`, headers and the image preview (`handleImageChange`, `FileReader`) are I/O. Requests are values, and outcomes are parameters.
- `window.confirm` is modelled as a `confirmed` flag; on the home page the confirmation sits in the card's handler (HomePage.jsx:163-167) and is folded into `Home.DeleteTrip`. `alert` is modelled as an alert text in the result of `Overview.DeleteTrip` and `PlanTrip.SaveFinished`.
- Apart from `PlanTrip.SaveTrip`, which returns the in-flight state (loading true, request to send) that `PlanTrip.SaveFinished` resolves, intermediate `loading: true` states are not modelled. Every other transition yields the state after the asynchronous call resolves.
- Navigation helpers that only change route (`handleAddActivity`, `handleEditActivity`, `handleViewTrip`, `handleEditTrip`, `handleCancel`) are not modelled. The route state they carry becomes explicit parameters, such as the `sel` of `Overview.Select`.
- Login, Signup, Navbar, Footer, About, TripCard, App routing and the Tailwind config hold no logic beyond markup and I/O. Token storage becomes an `Option<string>` parameter.
- Numbers are `real`, not IEEE doubles, so NaN, rounding and `+` on strings (a cost typed as text) are not modelled. Fetched costs and budgets are taken to be numbers.
- JavaScript orders object keys that look like array indices (such as "5") ahead of the other keys. Calendar-date keys never look like that, so the grouping uses pure insertion order. Keys such as "constructor", which hit `Object.prototype`, are not modelled.
- A change event on an input whose name is not one of the form's fields, which would add a new property, is not modelled. Fields are a closed enumeration.
- The decimal text of an id is exact for integers. JavaScript switches to exponent notation at 1e21, far beyond any id.

## Findings

| source | as written | input that shows it | evidently intended | confidence | as-written member | corrected member |
|---|---|---|---|---|---|---|
| src/pages/TripOverview/TripOverview.jsx:33-39 | every successful activity fetch (line 69) replaces the selected trip with a new object `{ ...prev, spent }`; the effect depends on `[selectedTrip]`, so it runs again and fetches again, without end | trip 1 selected, one activity of cost 500, fetch succeeds: each run sends a request and leaves the effect due | fetch at most twice per selection change (the second fetch finds `spent` current); keep the selection object when its `spent` is already current | not executed; high | Refetch.PatchHeldAsWritten, shown by Refetch.AsWrittenNeverSettles and Refetch.AsWrittenExample | Refetch.PatchHeld, proved by Refetch.CorrectedSettles and Refetch.CorrectionAgreesOnValues |
| src/pages/Home/HomePage.jsx:52 | the delete handler sets `trips.filter(...)` on the list captured when the button was clicked | trips A(1), B(2), C(3); deletes of A and B clicked in the same render; A resolves, then B: the list shows A, C | `setTrips(prev => prev.filter(...))`, so overlapping deletes remove both | not executed; medium | Home.DeleteTrip, shown by Home.OverlappingDeletesResurrect | Home.DeleteTripLatest, proved by Home.OverlappingDeletesBothRemoved and Home.DeleteTripLatestKeepsUniqueIds |
| src/pages/TripOverview/TripOverview.jsx:89-92 | the delete handler filters the captured list and tests the captured selection, which is always null because the button is only shown in the list view | trip 1 listed; its delete is clicked, then trip 1 is opened before the DELETE resolves: the list becomes empty and trip 1 stays selected | `setTrips(prev => prev.filter(...))` and `setSelectedTrip(prev => prev?.id === tripId ? null : prev)` | not executed; medium | Overview.DeleteTrip, shown by Overview.DeleteDuringViewLeavesStaleSelection | Overview.DeleteTripLatest, proved by Overview.DeleteTripKeepsInSync |

=== FILE: addactivity.dfy ===
/** The add/edit activity form: its initial values, field changes, the redirect
    when no trip was handed over, and the save request with the trip id added. */
module AddActivity {
  import opened Records
  import opened Spend
  import opened Decimal

  /** The six inputs of the activity form. */
  datatype ActivityField = Name | Location | Cost | Notes | Date | Time

  datatype ActivityForm = ActivityForm(
    name: FormValue,
    location: FormValue,
    cost: FormValue,
    notes: FormValue,
    date: FormValue,
    time: FormValue)

  function Get(form: ActivityForm, f: ActivityField): FormValue {
    match f
    case Name => form.name
    case Location => form.location
    case Cost => form.cost
    case Notes => form.notes
    case Date => form.date
    case Time => form.time
  }

  /** The form's starting values: copied from the activity being edited, with
      "" for a missing text field and 0 for a missing cost. */
  function InitialForm(edit: Option<Activity>): (form: ActivityForm)
    ensures edit.None? ==> forall f :: Get(form, f) == (if f == Cost then Num(0.0) else Text(""))
    ensures edit.Some? ==> Get(form, Name) == Text(edit.value.name)
    ensures edit.Some? ==> Get(form, Location) == Text(OrEmpty(edit.value.location))
    ensures edit.Some? ==> Get(form, Cost) == Num(CostOf(edit.value))
    ensures edit.Some? ==> Get(form, Notes) == Text(OrEmpty(edit.value.notes))
    ensures edit.Some? ==> Get(form, Date) == Text(OrEmpty(edit.value.date))
    ensures edit.Some? ==> Get(form, Time) == Text(OrEmpty(edit.value.time))
  {
    match edit
    case None => ActivityForm(Text(""), Text(""), Num(0.0), Text(""), Text(""), Text(""))
    case Some(a) =>
      ActivityForm(Text(a.name), Text(OrEmpty(a.location)), Num(CostOf(a)),
                   Text(OrEmpty(a.notes)), Text(OrEmpty(a.date)), Text(OrEmpty(a.time)))
  }

  /** An input's change event: the named field takes the typed text, the others stay. */
  function Change(form: ActivityForm, f: ActivityField, value: string): (g: ActivityForm)
    ensures forall x :: Get(g, x) == (if x == f then Text(value) else Get(form, x))
  {
    match f
    case Name => form.(name := Text(value))
    case Location => form.(location := Text(value))
    case Cost => form.(cost := Text(value))
    case Notes => form.(notes := Text(value))
    case Date => form.(date := Text(value))
    case Time => form.(time := Text(value))
  }

  /** Typing the same text into a field twice is the same as typing it once. */
  lemma ChangeIdempotent(form: ActivityForm, f: ActivityField, value: string)
    ensures Change(Change(form, f, value), f, value) == Change(form, f, value)
  {
  }

  /** Changes to two different fields can be made in either order. */
  lemma ChangeCommutes(form: ActivityForm, f: ActivityField, a: string, g: ActivityField, b: string)
    requires f != g
    ensures Change(Change(form, f, a), g, b) == Change(Change(form, g, b), f, a)
  {
  }

  /** Without a trip the page sends the user back to the overview. */
  function Redirect(trip: Option<Trip>): (route: Option<string>)
    ensures route.Some? <==> trip.None?
    ensures route.Some? ==> route.value == "/tripoverview"
  {
    if trip.None? then Some("/tripoverview") else None
  }

  /** The request body: the form's fields plus the owning trip's id. */
  datatype Body = Body(form: ActivityForm, tripId: int)

  datatype Request = Request(verb: Method, url: string, body: Body)

  /** The address of one activity. */
  function ActivityUrl(id: int): (url: string)
    ensures |url| > |ActivitiesApi|
    ensures url[..|ActivitiesApi|] == ActivitiesApi
  {
    ActivitiesApi + "/" + IntToString(id)
  }

  /** Two different activities are never sent to the same address. */
  lemma ActivityUrlInjective(a: int, b: int)
    requires ActivityUrl(a) == ActivityUrl(b)
    ensures a == b
  {
    var n := |ActivitiesApi| + 1;
    assert IntToString(a) == ActivityUrl(a)[n..];
    assert IntToString(b) == ActivityUrl(b)[n..];
    IntToStringInjective(a, b);
  }

  /** Pressing save. Editing sends a PUT to the edited activity's address, adding
      sends a POST to the collection; both carry the form plus the trip's id.
      Without a trip, reading its id throws before any request is made. */
  function Submit(trip: Option<Trip>, edit: Option<Activity>, form: ActivityForm): (r: Option<Request>)
    ensures r.Some? <==> trip.Some?
    ensures r.Some? ==> r.value.body.form == form && r.value.body.tripId == trip.value.id
    ensures r.Some? ==> (r.value.verb == Put <==> edit.Some?)
    ensures r.Some? ==> (r.value.verb == Post <==> edit.None?)
    ensures r.Some? && edit.Some? ==> r.value.url == ActivityUrl(edit.value.id)
    ensures r.Some? ==> (r.value.url == ActivitiesApi <==> edit.None?)
  {
    match trip
    case None => None
    case Some(t) =>
      match edit
      case Some(a) => Some(Request(Put, ActivityUrl(a.id), Body(form, t.id)))
      case None => Some(Request(Post, ActivitiesApi, Body(form, t.id)))
  }

  /** The inverse of `OrEmpty`: empty text reads as a missing value. */
  function NonEmpty(s: string): (o: Option<string>)
    ensures OrEmpty(o) == s
    ensures o.Some? ==> o.value != ""
  {
    if s == "" then None else Some(s)
  }

  /** An activity whose optional texts are missing rather than empty and whose
      cost is present: the form's defaults lose nothing of it. */
  predicate Canonical(a: Activity) {
    && a.location != Some("") && a.notes != Some("")
    && a.date != Some("") && a.time != Some("")
    && a.cost.Some?
  }

  /** Reads a request body back as an activity record with the given id, an
      empty text as missing; `None` when a field holds the wrong kind of value. */
  function ActivityOfBody(b: Body, id: int): Option<Activity> {
    var f := b.form;
    if f.name.Text? && f.location.Text? && f.cost.Num? && f.notes.Text? && f.date.Text? && f.time.Text? then
      Some(Activity(id, b.tripId, f.name.text, NonEmpty(f.location.text), Some(f.cost.num),
                    NonEmpty(f.date.text), NonEmpty(f.time.text), NonEmpty(f.notes.text)))
    else None
  }

  /** Editing round trip: saving an edit form left as it was initialised sends a
      PUT to the activity's own address whose body reads back as the activity
      itself, now owned by the trip handed over. */
  lemma EditUnchangedRoundTrip(t: Trip, a: Activity)
    requires Canonical(a)
    ensures var r := Submit(Some(t), Some(a), InitialForm(Some(a)));
            && r.Some? && r.value.verb == Put && r.value.url == ActivityUrl(a.id)
            && ActivityOfBody(r.value.body, a.id) == Some(a.(tripId := t.id))
  {
  }

  const SavePrefix: string := "Failed to save activity: "

  /** What the page does once the save settles: navigation to the overview,
      carrying the trip to show, or an error message. */
  datatype SubmitDone = Navigate(route: string, selectedTrip: Option<Trip>) | ShowError(message: string)

  /** A saved activity returns to the overview with its trip selected; a failure
      (including the missing-trip error, where no request goes out) shows the
      prefixed detail. `r` is the outcome of the request `Submit` sends. */
  function SubmitFinished(trip: Option<Trip>, edit: Option<Activity>, form: ActivityForm, r: Response<()>, detail: string): (d: SubmitDone)
    ensures d.Navigate? <==> trip.Some? && r.Ok?
    ensures d.Navigate? ==> d.route == "/tripoverview" && d.selectedTrip == trip
    ensures d.ShowError? ==> d.message == SavePrefix + detail
  {
    var sent := Submit(trip, edit, form);
    if sent.Some? && r.Ok? then Navigate("/tripoverview", trip) else ShowError(SavePrefix + detail)
  }

  /** After a successful save the overview opens on the very trip the saved
      activity was attached to. */
  lemma SavedActivityShowsItsTrip(trip: Option<Trip>, edit: Option<Activity>, form: ActivityForm, detail: string)
    ensures var d := SubmitFinished(trip, edit, form, Ok(()), detail);
            d.Navigate? <==> Submit(trip, edit, form).Some?
    ensures var d := SubmitFinished(trip, edit, form, Ok(()), detail);
            d.Navigate? ==> d.selectedTrip.Some? && d.selectedTrip.value.id == Submit(trip, edit, form).value.body.tripId
  {
  }
}

=== FILE: budget.dfy ===
/** Budget metrics shown for the selected trip. */
module Budget {
  import opened Records
  import opened Spend
  import opened Store

  /** The four figures of the budget summary. */
  datatype Metrics = Metrics(totalSpent: real, totalBudget: real, remaining: real, percentage: real)

  /** `Math.min(a, b)` on reals. */
  function Min(a: real, b: real): real {
    if a <= b then a else b
  }

  /** Spent and budget of the selection (0 when nothing is selected), what is
      left, and the share of the budget used, capped at 100. */
  function MetricsOf(sel: Option<Trip>): (m: Metrics)
    ensures sel.None? ==> m == Metrics(0.0, 0.0, 0.0, 0.0)
    ensures sel.Some? ==> m.totalSpent == sel.value.spent && m.totalBudget == sel.value.totalBudget
    ensures m.remaining + m.totalSpent == m.totalBudget
    ensures m.percentage <= 100.0
    ensures m.totalBudget <= 0.0 ==> m.percentage == 0.0
    ensures m.totalBudget > 0.0 && m.totalSpent >= m.totalBudget ==> m.percentage == 100.0
    ensures m.totalBudget > 0.0 && m.totalSpent <= m.totalBudget ==>
      m.percentage * m.totalBudget == m.totalSpent * 100.0
    ensures m.totalSpent >= 0.0 ==> m.percentage >= 0.0
  {
    var spent := if sel.Some? then sel.value.spent else 0.0;
    var budget := if sel.Some? then sel.value.totalBudget else 0.0;
    var pct := if budget > 0.0 then PercentageBounds(spent, budget); Min(100.0, (spent / budget) * 100.0) else 0.0;
    Metrics(spent, budget, budget - spent, pct)
  }

  lemma PercentageBounds(spent: real, budget: real)
    requires budget > 0.0
    ensures spent >= budget ==> (spent / budget) * 100.0 >= 100.0
    ensures spent <= budget ==> (spent / budget) * 100.0 * budget == spent * 100.0
    ensures spent >= 0.0 ==> spent / budget >= 0.0
  {
    var q := spent / budget;
    assert q * budget == spent;
    if spent >= budget {
      assert (q - 1.0) * budget >= 0.0;
    }
  }

  /** A selection whose spend was just recomputed from activities with no
      negative cost shows a percentage of at least 0. */
  lemma {:induction false} PatchedPercentageNonNegative(sel: Option<Trip>, tripId: int, acts: seq<Activity>)
    requires forall i :: 0 <= i < |acts| ==> CostOf(acts[i]) >= 0.0
    requires sel.Some? && sel.value.id == tripId
    ensures MetricsOf(PatchSelected(sel, tripId, CostSum(acts))).percentage >= 0.0
  {
    CostSumNonNegative(acts);
  }
}

=== FILE: decimal.dfy ===
/** Decimal text of an integer, as a template literal renders a number id. */
module Decimal {

  /** The character of a decimal digit. */
  function Digit(d: nat): (c: char)
    requires d < 10
    ensures '0' <= c <= '9'
  {
    (48 + d) as char
  }

  /** The value of a digit character. */
  function DigitValue(c: char): nat
    requires '0' <= c <= '9'
  {
    (c as int - 48) as nat
  }

  predicate AllDigits(s: string) {
    forall i :: 0 <= i < |s| ==> '0' <= s[i] <= '9'
  }

  /** The shortest decimal text of `n`: no sign, no leading zero. */
  function NatToString(n: nat): (s: string)
    ensures |s| > 0 && AllDigits(s)
    ensures n == 0 ==> s == "0"
    ensures n > 0 ==> s[0] != '0'
    decreases n
  {
    if n < 10 then [Digit(n)] else NatToString(n / 10) + [Digit(n % 10)]
  }

  /** Reads a digit string back as a number. */
  function ParseDigits(s: string): nat
    requires AllDigits(s)
    decreases |s|
  {
    if |s| == 0 then 0
    else
      assert AllDigits(s[..|s| - 1]);
      ParseDigits(s[..|s| - 1]) * 10 + DigitValue(s[|s| - 1])
  }

  /** Reading the text of `n` gives back `n`. */
  lemma {:induction false} NatRoundTrip(n: nat)
    ensures ParseDigits(NatToString(n)) == n
    decreases n
  {
    var s := NatToString(n);
    if n < 10 {
      assert s[..0] == [];
    } else {
      NatRoundTrip(n / 10);
      assert s[..|s| - 1] == NatToString(n / 10);
      assert DigitValue(s[|s| - 1]) == n % 10;
    }
  }

  /** The decimal text of an integer, with a leading '-' when negative. */
  function IntToString(i: int): (s: string)
    ensures |s| > 0
    ensures s[0] == '-' <==> i < 0
  {
    if i < 0 then "-" + NatToString(-i) else NatToString(i)
  }

  /** Different integers have different texts. */
  lemma IntToStringInjective(a: int, b: int)
    requires IntToString(a) == IntToString(b)
    ensures a == b
  {
    if a < 0 {
      assert b < 0;
      assert NatToString(-a) == IntToString(a)[1..] == IntToString(b)[1..] == NatToString(-b);
      NatRoundTrip(-a);
      NatRoundTrip(-b);
    } else {
      assert b >= 0;
      NatRoundTrip(a);
      NatRoundTrip(b);
    }
  }
}

=== FILE: grouping.dfy ===
/** Grouping the selected trip's activities by date for display. The page builds
    a plain object keyed by date; its keys iterate in insertion order, so the
    result is modelled as the key order plus a map from key to group. */
module Grouping {
  import opened Records

  /** The key for activities with an empty or missing date. */
  const NoDate: string := "No Date"

  /** `activity.date || "No Date"`. */
  function DateKey(a: Activity): (k: string)
    ensures k != ""
    ensures a.date.Some? && a.date.value != "" ==> k == a.date.value
    ensures a.date.None? || a.date.value == "" ==> k == NoDate
  {
    match a.date
    case Some(d) => if d == "" then NoDate else d
    case None => NoDate
  }

  /** Groups in key order: `keys` lists the keys as first inserted, `groups` maps each to its activities. */
  datatype Grouped = Grouped(keys: seq<string>, groups: map<string, seq<Activity>>)

  /** One step of the `forEach`: append the activity to its date's group, opening
      the group at the end of the key order when the date is new. */
  function Push(g: Grouped, a: Activity): Grouped {
    var k := DateKey(a);
    if k in g.groups then Grouped(g.keys, g.groups[k := g.groups[k] + [a]])
    else Grouped(g.keys + [k], g.groups[k := [a]])
  }

  /** The grouping of a whole activity list, folding from the left in input order. */
  function GroupOf(acts: seq<Activity>): Grouped
    decreases |acts|
  {
    if |acts| == 0 then Grouped([], map[])
    else Push(GroupOf(acts[..|acts| - 1]), acts[|acts| - 1])
  }

  /** Reference definition: the activities with key `k`, in input order. */
  function WithKey(acts: seq<Activity>, k: string): seq<Activity>
    decreases |acts|
  {
    if |acts| == 0 then []
    else
      var last := acts[|acts| - 1];
      WithKey(acts[..|acts| - 1], k) + (if DateKey(last) == k then [last] else [])
  }

  /** Whether some activity has key `k`. */
  ghost predicate Occurs(acts: seq<Activity>, k: string) {
    exists i :: 0 <= i < |acts| && DateKey(acts[i]) == k
  }

  /** Key `k1` first occurs strictly before any occurrence of key `k2`. */
  ghost predicate SeenBefore(acts: seq<Activity>, k1: string, k2: string) {
    exists p :: 0 <= p < |acts| && DateKey(acts[p]) == k1 &&
      forall q :: 0 <= q <= p ==> DateKey(acts[q]) != k2
  }

  /** The keys are distinct and are exactly the keys of the map. */
  ghost predicate WellFormed(g: Grouped) {
    && (forall i, j :: 0 <= i < j < |g.keys| ==> g.keys[i] != g.keys[j])
    && (forall k :: k in g.groups <==> k in g.keys)
  }

  /** `g` is the date grouping of `acts`: a key exists exactly for the dates that
      occur, each group holds exactly its activities in input order, and the keys
      are in order of first occurrence. */
  ghost predicate GroupsOf(g: Grouped, acts: seq<Activity>) {
    && WellFormed(g)
    && (forall k :: k in g.groups <==> Occurs(acts, k))
    && (forall k :: k in g.groups ==> g.groups[k] == WithKey(acts, k))
    && (forall i, j :: 0 <= i < j < |g.keys| ==> SeenBefore(acts, g.keys[i], g.keys[j]))
  }

  lemma WithKeyEmptyIffAbsent(acts: seq<Activity>, k: string)
    ensures WithKey(acts, k) == [] <==> !Occurs(acts, k)
    decreases |acts|
  {
  }

  /** The fold builds the date grouping of its input. */
  lemma {:induction false} GroupOfGroups(acts: seq<Activity>)
    ensures GroupsOf(GroupOf(acts), acts)
    decreases |acts|
  {
    if |acts| > 0 {
      var init := acts[..|acts| - 1];
      var a := acts[|acts| - 1];
      var k := DateKey(a);
      var g := GroupOf(init);
      GroupOfGroups(init);
      var h := Push(g, a);
      assert GroupOf(acts) == h;
      assert acts[..|acts| - 1] == init;
      forall i | 0 <= i < |init| ensures acts[i] == init[i] { }
      // Occurrence in acts is occurrence in init, or the new key.
      forall x ensures Occurs(acts, x) <==> Occurs(init, x) || x == k {
        if Occurs(init, x) {
          var i :| 0 <= i < |init| && DateKey(init[i]) == x;
          assert DateKey(acts[i]) == x;
        }
        if Occurs(acts, x) && x != k {
          var i :| 0 <= i < |acts| && DateKey(acts[i]) == x;
          assert i < |init|;
          assert DateKey(init[i]) == x;
        }
        assert DateKey(acts[|acts| - 1]) == k;
      }
      // Groups hold exactly the selected activities.
      forall x | x in h.groups ensures h.groups[x] == WithKey(acts, x) {
        if x == k {
          if k in g.groups {
          } else {
            WithKeyEmptyIffAbsent(init, k);
          }
        }
      }
      // First-occurrence order.
      forall i, j | 0 <= i < j < |h.keys| ensures SeenBefore(acts, h.keys[i], h.keys[j]) {
        if k in g.groups {
          SeenBeforeExtends(init, a, h.keys[i], h.keys[j]);
        } else if j < |g.keys| {
          SeenBeforeExtends(init, a, h.keys[i], h.keys[j]);
        } else {
          assert h.keys[j] == k && h.keys[i] == g.keys[i];
          assert Occurs(init, g.keys[i]);
          var p :| 0 <= p < |init| && DateKey(init[p]) == g.keys[i];
          assert DateKey(acts[p]) == g.keys[i];
          forall q | 0 <= q <= p ensures DateKey(acts[q]) != k {
            assert DateKey(init[q]) != k || Occurs(init, k);
          }
        }
      }
    }
  }

  lemma SeenBeforeExtends(init: seq<Activity>, a: Activity, k1: string, k2: string)
    requires SeenBefore(init, k1, k2)
    ensures SeenBefore(init + [a], k1, k2)
  {
    var acts := init + [a];
    var p :| 0 <= p < |init| && DateKey(init[p]) == k1 &&
      forall q :: 0 <= q <= p ==> DateKey(init[q]) != k2;
    assert DateKey(acts[p]) == k1;
    forall q | 0 <= q <= p ensures DateKey(acts[q]) != k2 {
      assert acts[q] == init[q];
    }
  }

  /** The page's `forEach` over the fetched activities, building the grouping. */
  method GroupByDate(acts: seq<Activity>) returns (g: Grouped)
    ensures GroupsOf(g, acts)
    ensures Sizes(g.keys, g.groups) == |acts|
  {
    g := Grouped([], map[]);
    var i := 0;
    while i < |acts|
      invariant 0 <= i <= |acts|
      invariant g == GroupOf(acts[..i])
    {
      assert acts[..i + 1][..i] == acts[..i];
      g := Push(g, acts[i]);
      i := i + 1;
    }
    assert acts[..i] == acts;
    GroupOfGroups(acts);
    GroupSizesSumToLength(acts);
  }

  /** Sum of the group sizes, walking the keys in order. */
  function Sizes(keys: seq<string>, groups: map<string, seq<Activity>>): nat
    decreases |keys|
  {
    if |keys| == 0 then 0
    else
      var k := keys[|keys| - 1];
      Sizes(keys[..|keys| - 1], groups) + (if k in groups then |groups[k]| else 0)
  }

  lemma {:induction false} SizesUpdate(keys: seq<string>, groups: map<string, seq<Activity>>, k: string, v: seq<Activity>)
    requires k in groups
    requires forall i, j :: 0 <= i < j < |keys| ==> keys[i] != keys[j]
    ensures k in keys ==> Sizes(keys, groups[k := v]) + |groups[k]| == Sizes(keys, groups) + |v|
    ensures k !in keys ==> Sizes(keys, groups[k := v]) == Sizes(keys, groups)
    decreases |keys|
  {
    if |keys| > 0 {
      var init := keys[..|keys| - 1];
      SizesUpdate(init, groups, k, v);
      if keys[|keys| - 1] == k {
        forall i | 0 <= i < |init| ensures init[i] != k {
          assert init[i] == keys[i];
        }
      } else {
        assert k in keys ==> k in init by {
          if k in keys {
            var i :| 0 <= i < |keys| && keys[i] == k;
            assert init[i] == k;
          }
        }
      }
    }
  }

  lemma SizesNewKey(keys: seq<string>, groups: map<string, seq<Activity>>, k: string, v: seq<Activity>)
    requires k !in groups && k !in keys
    ensures Sizes(keys + [k], groups[k := v]) == Sizes(keys, groups) + |v|
  {
    assert (keys + [k])[..|keys|] == keys;
    SizesFrame(keys, groups, k, v);
  }

  lemma {:induction false} SizesFrame(keys: seq<string>, groups: map<string, seq<Activity>>, k: string, v: seq<Activity>)
    requires k !in keys
    ensures Sizes(keys, groups[k := v]) == Sizes(keys, groups)
    decreases |keys|
  {
    if |keys| > 0 {
      SizesFrame(keys[..|keys| - 1], groups, k, v);
    }
  }

  /** Grouping is a partition by count: the group sizes add up to the number of activities. */
  lemma {:induction false} GroupSizesSumToLength(acts: seq<Activity>)
    ensures Sizes(GroupOf(acts).keys, GroupOf(acts).groups) == |acts|
    decreases |acts|
  {
    if |acts| > 0 {
      var init := acts[..|acts| - 1];
      var a := acts[|acts| - 1];
      var k := DateKey(a);
      var g := GroupOf(init);
      GroupSizesSumToLength(init);
      GroupOfGroups(init);
      if k in g.groups {
        SizesUpdate(g.keys, g.groups, k, g.groups[k] + [a]);
      } else {
        SizesNewKey(g.keys, g.groups, k, [a]);
      }
    }
  }
}

=== FILE: home.dfy ===
/** The home page: the signed-in user's trips, loading and error state, trip
    deletion with a status-specific message, and the start-planning route. */
module Home {
  import opened Records
  import opened Store

  /** The page state; `error` is `None` when there is none. */
  datatype HomeView = HomeView(trips: seq<Trip>, loading: bool, error: Option<string>)

  const Initial: HomeView := HomeView([], true, None)

  const LoadError: string := "Failed to load trips. Please try again later."
  const ServerError: string := "Server error. The trip might have associated data that prevents deletion."
  const PermissionError: string := "You don't have permission to delete this trip."
  const GenericDeleteError: string := "Failed to delete trip. Please try again."

  /** The stored token counts only when it is a non-empty string. */
  predicate HasToken(token: Option<string>) {
    token.Some? && token.value != ""
  }

  /** The trip fetch resolved: a success replaces the list and clears the error,
      a failure sets the load message and keeps the list; loading ends either way. */
  function TripsFetched(v: HomeView, r: Response<seq<Trip>>): (w: HomeView)
    ensures !w.loading
    ensures r.Ok? ==> w.trips == r.body && w.error.None?
    ensures r.Failed? ==> w.trips == v.trips && w.error == Some(LoadError)
  {
    match r
    case Ok(list) => HomeView(list, false, None)
    case Failed(_) => v.(loading := false, error := Some(LoadError))
  }

  /** The mount effect: with a token the trips are fetched (outcome `fetched`);
      without one nothing is fetched and loading simply ends. */
  function Mount(v: HomeView, token: Option<string>, fetched: Response<seq<Trip>>): (w: HomeView)
    ensures !w.loading
    ensures !HasToken(token) ==> w == v.(loading := false)
    ensures HasToken(token) && fetched.Ok? ==> w.trips == fetched.body && w.error.None?
    ensures HasToken(token) && fetched.Failed? ==> w.trips == v.trips && w.error == Some(LoadError)
  {
    if HasToken(token) then TripsFetched(v, fetched) else v.(loading := false)
  }

  /** Without a token the fetch outcome is irrelevant: no request is made. */
  lemma MountWithoutTokenIgnoresFetch(v: HomeView, token: Option<string>, r1: Response<seq<Trip>>, r2: Response<seq<Trip>>)
    requires !HasToken(token)
    ensures Mount(v, token, r1) == Mount(v, token, r2)
  {
  }

  /** Mounting from the initial state: without a token the page shows no trips
      and stops loading; with one it shows the fetched list or the load error. */
  lemma MountFromInitial(token: Option<string>, r: Response<seq<Trip>>)
    ensures !HasToken(token) ==> Mount(Initial, token, r) == HomeView([], false, None)
    ensures HasToken(token) && r.Ok? ==> Mount(Initial, token, r) == HomeView(r.body, false, None)
    ensures HasToken(token) && r.Failed? ==> Mount(Initial, token, r) == HomeView([], false, Some(LoadError))
  {
  }

  /** The message for a failed delete, by response status (none when no response arrived). */
  function DeleteErrorMessage(status: Option<int>): (msg: string)
    ensures msg == ServerError <==> status == Some(500)
    ensures msg == PermissionError <==> status == Some(401) || status == Some(403)
    ensures msg == GenericDeleteError <==> !(status == Some(500) || status == Some(401) || status == Some(403))
  {
    if status == Some(500) then ServerError
    else if status == Some(401) || status == Some(403) then PermissionError
    else GenericDeleteError
  }

  /** Deleting a trip, as written. The card's handler asks for confirmation
      first; a declined one sends nothing. The handler filters `clicked`, the
      list of the render whose button was pressed, not the list current when
      the DELETE resolves. A success clears the error; a failure keeps the
      list and sets the status-specific message. */
  function DeleteTrip(v: HomeView, clicked: seq<Trip>, tripId: int, confirmed: bool, r: Response<()>): (w: HomeView)
    ensures w.loading == v.loading
    ensures !confirmed ==> w == v
    ensures confirmed && r.Ok? ==> w.trips == RemoveTrip(clicked, tripId) && w.error.None?
    ensures confirmed && r.Failed? ==> w.trips == v.trips && w.error == Some(DeleteErrorMessage(r.status))
    ensures confirmed && r.Ok? ==> forall t :: t in w.trips ==> t in clicked && t.id != tripId
  {
    if !confirmed then v
    else
      match r
      case Ok(_) => v.(trips := RemoveTrip(clicked, tripId), error := None)
      case Failed(status) => v.(error := Some(DeleteErrorMessage(status)))
  }

  /** Two deletes clicked in the same render: trips A, B and C are listed, A's
      DELETE resolves, then B's. B's handler filters the list it captured, which
      still holds A, so A reappears. */
  lemma OverlappingDeletesResurrect()
    ensures var a := Trip(1, "Ella", "2024-01-01", "2024-01-02", 100.0, 0.0, None);
            var b := Trip(2, "Galle", "2024-02-01", "2024-02-02", 100.0, 0.0, None);
            var c := Trip(3, "Jaffna", "2024-03-01", "2024-03-02", 100.0, 0.0, None);
            var shown := HomeView([a, b, c], false, None);
            var first := DeleteTrip(shown, shown.trips, 1, true, Ok(()));
            var second := DeleteTrip(first, shown.trips, 2, true, Ok(()));
            first.trips == [b, c] && second.trips == [a, c] && a !in first.trips && a in second.trips
  {
  }

  /** Deleting a trip, corrected to filter the current list
      (`setTrips(prev => prev.filter(...))`). */
  function DeleteTripLatest(v: HomeView, tripId: int, confirmed: bool, r: Response<()>): (w: HomeView)
    ensures w.loading == v.loading
    ensures !confirmed ==> w == v
    ensures confirmed && r.Ok? ==> w.trips == RemoveTrip(v.trips, tripId) && w.error.None?
    ensures confirmed && r.Failed? ==> w.trips == v.trips && w.error == Some(DeleteErrorMessage(r.status))
    ensures forall t :: t in w.trips ==> t in v.trips
  {
    if !confirmed then v
    else
      match r
      case Ok(_) => v.(trips := RemoveTrip(v.trips, tripId), error := None)
      case Failed(status) => v.(error := Some(DeleteErrorMessage(status)))
  }

  /** When the captured list is still the current one, the handler as written
      and the corrected one agree. */
  lemma DeleteTripAgreesWhenCurrent(v: HomeView, tripId: int, confirmed: bool, r: Response<()>)
    ensures DeleteTrip(v, v.trips, tripId, confirmed, r) == DeleteTripLatest(v, tripId, confirmed, r)
  {
  }

  /** Corrected, overlapping deletes remove both trips, whichever resolves first. */
  lemma OverlappingDeletesBothRemoved(v: HomeView, a: int, b: int)
    ensures var ab := DeleteTripLatest(DeleteTripLatest(v, a, true, Ok(())), b, true, Ok(()));
            var ba := DeleteTripLatest(DeleteTripLatest(v, b, true, Ok(())), a, true, Ok(()));
            ab == ba && forall t :: t in ab.trips ==> t in v.trips && t.id != a && t.id != b
  {
    RemoveTripCommutes(v.trips, a, b);
  }

  /** Corrected deletes keep the ids in the list unique. */
  lemma DeleteTripLatestKeepsUniqueIds(v: HomeView, tripId: int, confirmed: bool, r: Response<()>)
    requires UniqueIds(v.trips)
    ensures UniqueIds(DeleteTripLatest(v, tripId, confirmed, r).trips)
  {
    RemoveTripKeepsUniqueIds(v.trips, tripId);
  }

  /** A fetch keeps the ids unique: a failure keeps the list, and a success
      installs a list that has unique ids. */
  lemma TripsFetchedKeepsUniqueIds(v: HomeView, r: Response<seq<Trip>>)
    requires UniqueIds(v.trips)
    requires r.Ok? ==> UniqueIds(r.body)
    ensures UniqueIds(TripsFetched(v, r).trips)
  {
  }

  /** Where "start planning" leads. */
  function StartPlanning(token: Option<string>): (route: string)
    ensures route == "/plantrip" <==> HasToken(token)
    ensures route == "/login" <==> !HasToken(token)
  {
    if HasToken(token) then "/plantrip" else "/login"
  }
}

=== FILE: overview.dfy ===
/** The trip overview page: the trip list, the selected trip, its activities,
    and the transitions the page's handlers and effects apply to them. Every
    remote call is a parameter holding the call's outcome. */
module Overview {
  import opened Records
  import opened Spend
  import opened Store

  /** The page state. `error` is "" when there is none. */
  datatype View = View(
    trips: seq<Trip>,
    selected: Option<Trip>,
    activities: seq<Activity>,
    loading: bool,
    error: string)

  const LoadTripsError: string := "Failed to load trips"

  /** The state when the page mounts, before any fetch resolves. */
  const Initial: View := View([], None, [], true, "")

  /** On mount the first trip fetch resolves: a success shows its list with
      nothing selected; a failure shows the load error over an empty list. */
  lemma FirstLoad(r: Response<seq<Trip>>)
    ensures r.Ok? ==> TripsLoaded(Initial, r) == View(r.body, None, [], false, "")
    ensures r.Failed? ==> TripsLoaded(Initial, r) == View([], None, [], false, LoadTripsError)
    ensures InSync(TripsLoaded(Initial, r))
  {
  }

  /** The trip fetch resolved: a success replaces the list, a failure sets the
      error and keeps the list; loading ends either way. */
  function TripsLoaded(v: View, r: Response<seq<Trip>>): (w: View)
    ensures !w.loading
    ensures w.selected == v.selected && w.activities == v.activities
    ensures r.Ok? ==> w.trips == r.body && w.error == v.error
    ensures r.Failed? ==> w.trips == v.trips && w.error == LoadTripsError
  {
    match r
    case Ok(list) => v.(trips := list, loading := false)
    case Failed(_) => v.(error := LoadTripsError, loading := false)
  }

  /** What the selection effect does for a given selection. */
  datatype Effect = FetchActivities(tripId: int) | ClearActivities

  /** A selection whose id is truthy (non-zero) triggers a fetch of its
      activities; no selection, or an id of 0, clears them. */
  function SelectionEffect(sel: Option<Trip>): (e: Effect)
    ensures e.FetchActivities? <==> sel.Some? && sel.value.id != 0
    ensures e.FetchActivities? ==> e.tripId == sel.value.id
  {
    if sel.Some? && sel.value.id != 0 then FetchActivities(sel.value.id) else ClearActivities
  }

  /** `response.data || []`. */
  function BodyOrEmpty(body: Option<seq<Activity>>): seq<Activity> {
    match body
    case Some(acts) => acts
    case None => []
  }

  /** The activity fetch for `tripId` resolved. A success stores the activities
      and patches their total into the list and the selection; a failure empties
      the activities and touches nothing else. */
  function ActivitiesLoaded(v: View, tripId: int, r: Response<Option<seq<Activity>>>): (w: View)
    ensures w.loading == v.loading && w.error == v.error
    ensures r.Failed? ==> w.activities == [] && w.trips == v.trips && w.selected == v.selected
    ensures r.Ok? ==> w.activities == BodyOrEmpty(r.body)
    ensures |w.trips| == |v.trips|
    ensures forall i :: 0 <= i < |w.trips| ==> w.trips[i].id == v.trips[i].id
    ensures forall i :: 0 <= i < |w.trips| && v.trips[i].id != tripId ==> w.trips[i] == v.trips[i]
    ensures r.Ok? ==> forall i :: 0 <= i < |w.trips| && v.trips[i].id == tripId ==>
      w.trips[i] == v.trips[i].(spent := CostSum(w.activities))
    ensures r.Ok? && v.selected.Some? && v.selected.value.id == tripId ==>
      w.selected == Some(v.selected.value.(spent := CostSum(w.activities)))
    ensures v.selected.None? || v.selected.value.id != tripId ==> w.selected == v.selected
  {
    match r
    case Ok(body) =>
      var acts := BodyOrEmpty(body);
      var total := CostSum(acts);
      v.(activities := acts,
         trips := PatchSpent(v.trips, tripId, total),
         selected := PatchSelected(v.selected, tripId, total))
    case Failed(_) => v.(activities := [])
  }

  /** The selection is a snapshot of a list entry with the same id. */
  predicate InSync(v: View) {
    v.selected.Some? ==> exists k :: 0 <= k < |v.trips| && v.trips[k] == v.selected.value
  }

  /** Reloading activities keeps a synchronised selection synchronised: the
      selected trip and its list entry receive the same `spent`. */
  lemma ActivitiesLoadedKeepsInSync(v: View, tripId: int, r: Response<Option<seq<Activity>>>)
    requires InSync(v)
    ensures InSync(ActivitiesLoaded(v, tripId, r))
  {
  }

  /** Loading the same response twice gives the same state as loading it once. */
  lemma ActivitiesLoadedIdempotent(v: View, tripId: int, r: Response<Option<seq<Activity>>>)
    ensures ActivitiesLoaded(ActivitiesLoaded(v, tripId, r), tripId, r) == ActivitiesLoaded(v, tripId, r)
  {
  }

  /** An empty successful fetch sets the selected trip's `spent` to 0, while a
      failed fetch keeps its previous `spent`: the two are told apart by `spent`,
      though both leave no activities. */
  lemma EmptyFetchVersusFailure(v: View, t: Trip, status: Option<int>)
    requires v.selected == Some(t)
    ensures ActivitiesLoaded(v, t.id, Ok(Some([]))).selected.value.spent == 0.0
    ensures ActivitiesLoaded(v, t.id, Failed(status)).selected.value.spent == t.spent
    ensures ActivitiesLoaded(v, t.id, Ok(Some([]))).activities == []
    ensures ActivitiesLoaded(v, t.id, Failed(status)).activities == []
  {
  }

  /** Runs the selection effect: fetch (with the given outcome) or clear. */
  function RunSelectionEffect(v: View, fetched: Response<Option<seq<Activity>>>): (w: View)
    ensures v.selected.None? || v.selected.value.id == 0 ==> w == v.(activities := [])
    ensures v.selected.Some? && v.selected.value.id != 0 ==> w == ActivitiesLoaded(v, v.selected.value.id, fetched)
  {
    match SelectionEffect(v.selected)
    case FetchActivities(id) => ActivitiesLoaded(v, id, fetched)
    case ClearActivities => v.(activities := [])
  }

  /** Selecting a trip (or none) and letting the selection effect run. */
  function Select(v: View, sel: Option<Trip>, fetched: Response<Option<seq<Activity>>>): (w: View)
    ensures w.loading == v.loading && w.error == v.error
    ensures sel.None? || fetched.Failed? ==> w.trips == v.trips
    ensures sel.None? ==> w == v.(selected := None, activities := [])
    ensures sel.Some? && sel.value.id == 0 ==> w == v.(selected := sel, activities := [])
    ensures sel.Some? && sel.value.id != 0 && fetched.Ok? ==>
      && w.activities == BodyOrEmpty(fetched.body)
      && w.selected == Some(sel.value.(spent := CostSum(w.activities)))
      && w.trips == PatchSpent(v.trips, sel.value.id, CostSum(w.activities))
    ensures sel.Some? && fetched.Failed? ==> w == v.(selected := sel, activities := [])
  {
    RunSelectionEffect(v.(selected := sel), fetched)
  }

  /** Viewing a trip from the list (`onView`) leaves the selection equal to its
      list entry, whatever the activity fetch returns. */
  lemma ViewFromListKeepsInSync(v: View, k: int, fetched: Response<Option<seq<Activity>>>)
    requires 0 <= k < |v.trips|
    ensures InSync(Select(v, Some(v.trips[k]), fetched))
  {
  }

  /** A failed trip fetch keeps a synchronised selection synchronised; so does
      a successful one whose list still holds the selected trip. */
  lemma TripsLoadedKeepsInSync(v: View, r: Response<seq<Trip>>)
    requires InSync(v)
    requires r.Ok? && v.selected.Some? ==> v.selected.value in r.body
    ensures InSync(TripsLoaded(v, r))
  {
  }

  const DeleteFailedAlert: string := "Failed to delete trip"

  /** What a delete leaves behind: the page state and the alert shown, if any. */
  datatype DeleteOutcome = DeleteOutcome(view: View, alert: Option<string>)

  /** Clearing the selection: when one was held the selection effect runs and
      clears the activities; clearing an empty selection changes nothing. */
  function Unselect(v: View): (w: View)
    ensures w.selected.None? && w.trips == v.trips && w.loading == v.loading && w.error == v.error
    ensures v.selected.Some? ==> w.activities == []
    ensures v.selected.None? ==> w == v
  {
    if v.selected.Some? then v.(selected := None, activities := []) else v
  }

  /** Deleting a trip, as written. `clickedTrips` and `clickedSelected` are the
      list and selection of the render whose button was pressed: the handler
      filters that list and tests that selection, not the state current when
      the DELETE resolves. The delete button is only shown in the list view,
      where nothing is selected. A declined confirmation changes nothing; a
      failed delete alerts and changes nothing. */
  function DeleteTrip(v: View, clickedTrips: seq<Trip>, clickedSelected: Option<Trip>, tripId: int, confirmed: bool, r: Response<()>): (d: DeleteOutcome)
    ensures !confirmed ==> d == DeleteOutcome(v, None)
    ensures confirmed && r.Failed? ==> d == DeleteOutcome(v, Some(DeleteFailedAlert))
    ensures confirmed && r.Ok? ==> d.alert.None? && d.view.trips == RemoveTrip(clickedTrips, tripId)
    ensures confirmed && r.Ok? && clickedSelected.Some? && clickedSelected.value.id == tripId ==>
      d.view.selected.None? && (v.selected.Some? ==> d.view.activities == [])
    ensures confirmed && r.Ok? && clickedSelected.Some? && clickedSelected.value.id == tripId && v.selected.None? ==>
      d.view.activities == v.activities
    ensures clickedSelected.None? || clickedSelected.value.id != tripId ==>
      d.view.selected == v.selected && d.view.activities == v.activities
    ensures d.view.loading == v.loading && d.view.error == v.error
  {
    if !confirmed then DeleteOutcome(v, None)
    else
      match r
      case Ok(_) =>
        var w := v.(trips := RemoveTrip(clickedTrips, tripId));
        if clickedSelected.Some? && clickedSelected.value.id == tripId then DeleteOutcome(Unselect(w), None)
        else DeleteOutcome(w, None)
      case Failed(_) => DeleteOutcome(v, Some(DeleteFailedAlert))
  }

  /** The delete is clicked in the list view (nothing selected); trip 1 is
      opened while its DELETE is in flight. When the DELETE resolves the trip
      leaves the list but stays selected. */
  lemma DeleteDuringViewLeavesStaleSelection()
    ensures var t := Trip(1, "Ella", "2024-01-01", "2024-01-02", 100.0, 0.0, None);
            var viewing := View([t], Some(t), [], false, "");
            var d := DeleteTrip(viewing, [t], None, 1, true, Ok(()));
            d.view.trips == [] && d.view.selected == Some(t) && !InSync(d.view)
  {
  }

  /** Deleting a trip, corrected to read the current state
      (`setTrips(prev => prev.filter(...))` and
      `setSelectedTrip(prev => prev?.id === tripId ? null : prev)`). */
  function DeleteTripLatest(v: View, tripId: int, confirmed: bool, r: Response<()>): (d: DeleteOutcome)
    ensures !confirmed ==> d == DeleteOutcome(v, None)
    ensures confirmed && r.Failed? ==> d == DeleteOutcome(v, Some(DeleteFailedAlert))
    ensures confirmed && r.Ok? ==> d.alert.None? && d.view.trips == RemoveTrip(v.trips, tripId)
    ensures confirmed && r.Ok? && v.selected.Some? && v.selected.value.id == tripId ==>
      d.view.selected.None? && d.view.activities == []
    ensures v.selected.None? || v.selected.value.id != tripId ==>
      d.view.selected == v.selected && d.view.activities == v.activities
    ensures d.view.loading == v.loading && d.view.error == v.error
  {
    if !confirmed then DeleteOutcome(v, None)
    else
      match r
      case Ok(_) =>
        var w := v.(trips := RemoveTrip(v.trips, tripId));
        if v.selected.Some? && v.selected.value.id == tripId then DeleteOutcome(Unselect(w), None)
        else DeleteOutcome(w, None)
      case Failed(_) => DeleteOutcome(v, Some(DeleteFailedAlert))
  }

  /** When the captured list and selection are still current, the handler as
      written and the corrected one agree. */
  lemma DeleteTripAgreesWhenCurrent(v: View, tripId: int, confirmed: bool, r: Response<()>)
    ensures DeleteTrip(v, v.trips, v.selected, tripId, confirmed, r) == DeleteTripLatest(v, tripId, confirmed, r)
  {
  }

  /** The corrected delete keeps a synchronised selection synchronised. */
  lemma DeleteTripKeepsInSync(v: View, tripId: int, confirmed: bool, r: Response<()>)
    requires InSync(v)
    ensures InSync(DeleteTripLatest(v, tripId, confirmed, r).view)
  {
  }

  /** Going back to the list: no selection and no activities. */
  function Back(v: View): (w: View)
    ensures w.selected.None? && w.activities == []
    ensures w.trips == v.trips && w.loading == v.loading && w.error == v.error
  {
    v.(selected := None, activities := [])
  }

  /** Going back also re-runs the selection effect, since the selection became
      null; that run only clears the activities again, so `Back` is exact. */
  lemma BackThenEffect(v: View, fetched: Response<Option<seq<Activity>>>)
    ensures RunSelectionEffect(Back(v), fetched) == Back(v)
  {
  }

  /** Clearing a held selection is selecting nothing and letting the effect run. */
  lemma UnselectIsSelectNone(v: View, fetched: Response<Option<seq<Activity>>>)
    requires v.selected.Some?
    ensures Unselect(v) == Select(v, None, fetched)
  {
  }
}

=== FILE: plantrip.dfy ===
/** The add/edit trip form: field changes, loading a trip for editing, the
    required-field check, and the shape of the save request. */
module PlanTrip {
  import opened Records

  /** The four fields of the trip form. */
  datatype TripField = Destination | StartDate | EndDate | TotalBudget

  datatype TripForm = TripForm(destination: FormValue, startDate: FormValue, endDate: FormValue, totalBudget: FormValue)

  /** A chosen image file. */
  datatype ImageFile = ImageFile(fileName: string)

  /** One entry of the multipart payload. */
  datatype PartValue = Field(value: FormValue) | File(file: ImageFile)
  datatype Part = Part(name: string, content: PartValue)

  /** A request the page sends. */
  datatype Request = Request(verb: Method, url: string, parts: seq<Part>)

  /** The page state; `error` is "" when there is none. */
  datatype PlanView = PlanView(form: TripForm, loading: bool, error: string)

  const RequiredError: string := "Please fill in all required fields"
  const LoadError: string := "Failed to load trip data"
  const SavePrefix: string := "Failed to save trip: "
  const EditMode: string := "edit"

  /** The form a new trip starts from: every field empty. */
  const EmptyForm: TripForm := TripForm(Text(""), Text(""), Text(""), Text(""))

  const Initial: PlanView := PlanView(EmptyForm, false, "")

  /** The fields in payload order. */
  const FieldOrder: seq<TripField> := [Destination, StartDate, EndDate, TotalBudget]

  /** The name an input and its payload entry carry. */
  function FieldName(f: TripField): string {
    match f
    case Destination => "destination"
    case StartDate => "startDate"
    case EndDate => "endDate"
    case TotalBudget => "totalBudget"
  }

  function Get(form: TripForm, f: TripField): FormValue {
    match f
    case Destination => form.destination
    case StartDate => form.startDate
    case EndDate => form.endDate
    case TotalBudget => form.totalBudget
  }

  /** An input's change event: the named field takes the typed text, the others stay. */
  function Change(form: TripForm, f: TripField, value: string): (g: TripForm)
    ensures forall x :: Get(g, x) == (if x == f then Text(value) else Get(form, x))
  {
    match f
    case Destination => form.(destination := Text(value))
    case StartDate => form.(startDate := Text(value))
    case EndDate => form.(endDate := Text(value))
    case TotalBudget => form.(totalBudget := Text(value))
  }

  /** Typing the same text into a field twice is the same as typing it once. */
  lemma ChangeIdempotent(form: TripForm, f: TripField, value: string)
    ensures Change(Change(form, f, value), f, value) == Change(form, f, value)
  {
  }

  /** Every required field is truthy. */
  predicate Complete(form: TripForm) {
    forall f :: Truthy(Get(form, f))
  }

  /** The save handler's check, field by field: all four fields are truthy. */
  lemma CompleteIffFourFields(form: TripForm)
    ensures Complete(form) <==>
      Truthy(form.destination) && Truthy(form.startDate) && Truthy(form.endDate) && Truthy(form.totalBudget)
  {
    assert Get(form, Destination) == form.destination && Get(form, StartDate) == form.startDate;
    assert Get(form, EndDate) == form.endDate && Get(form, TotalBudget) == form.totalBudget;
  }

  /** Changes to two different fields can be made in either order. */
  lemma ChangeCommutes(form: TripForm, f: TripField, a: string, g: TripField, b: string)
    requires f != g
    ensures Change(Change(form, f, a), g, b) == Change(Change(form, g, b), f, a)
  {
  }

  /** The form a fetched trip fills in: the record's own text and number values. */
  function FormOfTrip(t: Trip): (form: TripForm)
    ensures Get(form, Destination) == Text(t.destination) && Get(form, TotalBudget) == Num(t.totalBudget)
    ensures Get(form, StartDate) == Text(t.startDate) && Get(form, EndDate) == Text(t.endDate)
  {
    TripForm(Text(t.destination), Text(t.startDate), Text(t.endDate), Num(t.totalBudget))
  }

  /** A trip loaded for editing with a budget of 0 holds the number 0, which is
      falsy, so it cannot be saved until the budget is typed again. */
  lemma ZeroBudgetBlocksEditSave(t: Trip)
    requires t.totalBudget == 0.0
    ensures !Complete(FormOfTrip(t))
  {
  }

  /** In edit mode with a route id, the trip is fetched into the form; a failure
      sets the load message. In add mode nothing happens. */
  function LoadForEdit(v: PlanView, mode: string, id: Option<string>, r: Response<Trip>): (w: PlanView)
    ensures !(mode == EditMode && id.Some? && id.value != "") ==> w == v
    ensures mode == EditMode && id.Some? && id.value != "" ==> !w.loading
    ensures mode == EditMode && id.Some? && id.value != "" && r.Ok? ==> w.form == FormOfTrip(r.body) && w.error == v.error
    ensures mode == EditMode && id.Some? && id.value != "" && r.Failed? ==> w.form == v.form && w.error == LoadError
  {
    if mode == EditMode && id.Some? && id.value != "" then
      match r
      case Ok(t) => v.(form := FormOfTrip(t), loading := false)
      case Failed(_) => v.(error := LoadError, loading := false)
    else v
  }

  /** A trip loaded for editing can be saved unchanged exactly when its
      destination and dates are non-empty and its budget is non-zero. */
  lemma FormOfTripComplete(t: Trip)
    ensures Complete(FormOfTrip(t)) <==>
      t.destination != "" && t.startDate != "" && t.endDate != "" && t.totalBudget != 0.0
  {
  }

  /** `${id}` for the route parameter, which is `undefined` when absent. */
  function IdSegment(id: Option<string>): string {
    match id
    case Some(s) => s
    case None => "undefined"
  }

  /** The multipart payload: the four fields in order, then the image when one was chosen. */
  function Payload(form: TripForm, image: Option<ImageFile>): (parts: seq<Part>)
    ensures |parts| == if image.Some? then 5 else 4
    ensures forall i :: 0 <= i < 4 ==> parts[i] == Part(FieldName(FieldOrder[i]), Field(Get(form, FieldOrder[i])))
    ensures image.Some? ==> parts[4] == Part("image", File(image.value))
  {
    var fields := [
      Part("destination", Field(form.destination)),
      Part("startDate", Field(form.startDate)),
      Part("endDate", Field(form.endDate)),
      Part("totalBudget", Field(form.totalBudget))];
    match image
    case Some(file) => fields + [Part("image", File(file))]
    case None => fields
  }

  /** The outcome of pressing save: the new page state and the request sent, if any. */
  datatype SaveStart = SaveStart(view: PlanView, request: Option<Request>)

  /** Pressing save. An incomplete form sets the required-fields message, ends
      loading and sends nothing. Otherwise the payload goes out as a PUT to the
      trip's own address in edit mode and as a POST to the collection otherwise. */
  function SaveTrip(v: PlanView, mode: string, id: Option<string>, image: Option<ImageFile>): (s: SaveStart)
    ensures s.view.form == v.form
    ensures s.request.None? <==> !Complete(v.form)
    ensures !Complete(v.form) ==> !s.view.loading && s.view.error == RequiredError
    ensures Complete(v.form) ==> s.view.loading && s.view.error == ""
    ensures s.request.Some? ==> (s.request.value.verb == Put <==> mode == EditMode)
    ensures s.request.Some? ==> (s.request.value.verb == Post <==> mode != EditMode)
    ensures s.request.Some? ==> (s.request.value.url == TripsApi <==> mode != EditMode)
    ensures s.request.Some? && mode == EditMode ==> s.request.value.url == TripsApi + "/" + IdSegment(id)
    ensures s.request.Some? ==> s.request.value.parts == Payload(v.form, image)
  {
    if !Complete(v.form) then
      SaveStart(v.(loading := false, error := RequiredError), None)
    else
      var verb := if mode == EditMode then Put else Post;
      var url := if mode == EditMode then TripsApi + "/" + IdSegment(id) else TripsApi;
      SaveStart(v.(loading := true, error := ""), Some(Request(verb, url, Payload(v.form, image))))
  }

  /** What the page does once the save request resolves. */
  datatype SaveDone = SaveDone(view: PlanView, alert: Option<string>, navigateTo: Option<string>)

  /** A success alerts and returns to the overview; a failure shows the
      prefixed error detail (the server's body, or the transport message). */
  function SaveFinished(v: PlanView, mode: string, r: Response<()>, detail: string): (d: SaveDone)
    ensures !d.view.loading && d.view.form == v.form
    ensures d.navigateTo.Some? <==> r.Ok?
    ensures r.Ok? ==> d.navigateTo == Some("/tripoverview")
    ensures r.Ok? && mode == EditMode ==> d.alert == Some("Trip updated successfully!")
    ensures r.Ok? && mode != EditMode ==> d.alert == Some("Trip created successfully!")
    ensures r.Failed? ==> d.alert.None? && d.view.error == SavePrefix + detail
  {
    match r
    case Ok(_) =>
      var msg := if mode == EditMode then "Trip updated successfully!" else "Trip created successfully!";
      SaveDone(v.(loading := false), Some(msg), Some("/tripoverview"))
    case Failed(_) =>
      SaveDone(v.(loading := false, error := SavePrefix + detail), None, None)
  }

  /** Editing round trip: a trip loaded by its route id and saved unchanged goes
      back as a PUT to that id's address, carrying the loaded values; a trip with
      an empty or zero field is not sent at all. */
  lemma EditRoundTrip(v: PlanView, id: string, t: Trip, image: Option<ImageFile>)
    requires id != ""
    ensures var loaded := LoadForEdit(v, EditMode, Some(id), Ok(t));
            var s := SaveTrip(loaded, EditMode, Some(id), image);
            s.request ==
              if t.destination != "" && t.startDate != "" && t.endDate != "" && t.totalBudget != 0.0
              then Some(Request(Put, TripsApi + "/" + id, Payload(FormOfTrip(t), image)))
              else None
  {
  }

  /** A failed save keeps the form, so pressing save again sends the same request. */
  lemma RetryAfterFailedSave(v: PlanView, mode: string, id: Option<string>, image: Option<ImageFile>, status: Option<int>, detail: string)
    ensures var s1 := SaveTrip(v, mode, id, image);
            var failed := SaveFinished(s1.view, mode, Failed(status), detail);
            SaveTrip(failed.view, mode, id, image).request == s1.request
  {
  }

  /** A new trip starts empty: add mode loads nothing, and saving the untouched
      form sends no request and shows the required-fields message. */
  lemma AddModeStartsEmpty(mode: string, id: Option<string>, r: Response<Trip>, image: Option<ImageFile>)
    requires mode != EditMode
    ensures LoadForEdit(Initial, mode, id, r) == Initial
    ensures !Complete(EmptyForm)
    ensures SaveTrip(Initial, mode, id, image) == SaveStart(PlanView(EmptyForm, false, RequiredError), None)
  {
    assert !Truthy(Get(EmptyForm, Destination));
  }
}

=== FILE: records.dfy ===
/** Records shared by every page of the trip planner: trips and activities as
    the remote store delivers them, the values JavaScript holds in form fields,
    and the outcome of a remote call. */
module Records {

  /** A value that may be absent (JavaScript `null` or `undefined`). */
  datatype Option<+T> = None | Some(value: T)

  /** A trip record. `spent` is recomputed locally from the trip's activities. */
  datatype Trip = Trip(
    id: int,
    destination: string,
    startDate: string,
    endDate: string,
    totalBudget: real,
    spent: real,
    imagePath: Option<string>)

  /** An activity record, owned by the trip `tripId`. Optional fields may be missing. */
  datatype Activity = Activity(
    id: int,
    tripId: int,
    name: string,
    location: Option<string>,
    cost: Option<real>,
    date: Option<string>,
    time: Option<string>,
    notes: Option<string>)

  /** A value held in a form's state: typed text, or a number copied from a record. */
  datatype FormValue = Text(text: string) | Num(num: real)

  /** JavaScript truthiness of a form value: the empty string and 0 are falsy. */
  predicate Truthy(v: FormValue) {
    match v
    case Text(s) => s != ""
    case Num(n) => n != 0.0
  }

  /** `s || ""` for an optional text field. */
  function OrEmpty(s: Option<string>): string {
    match s
    case Some(t) => t
    case None => ""
  }

  /** The outcome of a remote call: the response body, or a failure carrying the
      HTTP status when a response arrived at all. */
  datatype Response<T> = Ok(body: T) | Failed(status: Option<int>)

  /** The HTTP verbs the pages issue. */
  datatype Method = Get | Post | Put | Delete

  /** The base addresses the pages call. */
  const TripsApi: string := "http://localhost:8080/api/trips"
  const ActivitiesApi: string := "http://localhost:8080/api/activities"
}

=== FILE: refetch.dfy ===
/** The overview page's selection effect re-runs whenever the selected-trip
    object changes identity. Each successful activity fetch replaces the
    selected trip with a new object `{ ...prev, spent }`, so the effect fires
    again after every fetch and the page never stops fetching. This module
    tracks object identity to show that cycle (as written) and a correction
    that keeps the object when its `spent` is already up to date. */
module Refetch {
  import opened Records
  import opened Spend
  import opened Store
  import opened Overview

  /** The selected trip as the page holds it: its value and the identity of the object. */
  datatype Held = Held(trip: Option<Trip>, ref: nat)

  /** The effect's bookkeeping: the held selection, the identity the effect last
      ran for, and how many activity requests have been sent. */
  datatype Cycle = Cycle(held: Held, seen: nat, requests: nat)

  /** The effect's dependency changed since it last ran, so it runs again. */
  predicate EffectDue(c: Cycle) {
    c.held.ref != c.seen
  }

  /** As written: a matching id always yields a freshly spread object. */
  function PatchHeldAsWritten(h: Held, tripId: int, total: real): (g: Held)
    ensures g.trip == PatchSelected(h.trip, tripId, total)
    ensures h.trip.Some? && h.trip.value.id == tripId ==> g.ref != h.ref
  {
    match h.trip
    case Some(t) => if t.id == tripId then Held(Some(t.(spent := total)), h.ref + 1) else h
    case None => h
  }

  /** Corrected: the same object is kept when `spent` already equals the total. */
  function PatchHeld(h: Held, tripId: int, total: real): (g: Held)
    ensures g.trip == PatchSelected(h.trip, tripId, total)
    ensures h.trip.Some? && h.trip.value.id == tripId && h.trip.value.spent == total ==> g == h
    ensures h.trip.Some? && h.trip.value.id == tripId && h.trip.value.spent != total ==> g.ref != h.ref
  {
    match h.trip
    case Some(t) =>
      if t.id == tripId && t.spent != total then Held(Some(t.(spent := total)), h.ref + 1) else h
    case None => h
  }

  /** One run of the effect, when due, with every fetch returning `acts`. */
  function StepAsWritten(c: Cycle, acts: seq<Activity>): Cycle {
    if !EffectDue(c) then c
    else
      match SelectionEffect(c.held.trip)
      case FetchActivities(id) => Cycle(PatchHeldAsWritten(c.held, id, CostSum(acts)), c.held.ref, c.requests + 1)
      case ClearActivities => c.(seen := c.held.ref)
  }

  function Step(c: Cycle, acts: seq<Activity>): Cycle {
    if !EffectDue(c) then c
    else
      match SelectionEffect(c.held.trip)
      case FetchActivities(id) => Cycle(PatchHeld(c.held, id, CostSum(acts)), c.held.ref, c.requests + 1)
      case ClearActivities => c.(seen := c.held.ref)
  }

  function StepsAsWritten(c: Cycle, acts: seq<Activity>, n: nat): Cycle
    decreases n
  {
    if n == 0 then c else StepsAsWritten(StepAsWritten(c, acts), acts, n - 1)
  }

  function Steps(c: Cycle, acts: seq<Activity>, n: nat): Cycle
    decreases n
  {
    if n == 0 then c else Steps(Step(c, acts), acts, n - 1)
  }

  /** A selected trip with a usable id whose effect is pending. */
  predicate Fetching(c: Cycle) {
    c.held.trip.Some? && c.held.trip.value.id != 0 && EffectDue(c)
  }

  /** As written, the effect is due again after every run: `n` runs send `n`
      requests and the cycle never settles. */
  lemma {:induction false} AsWrittenNeverSettles(c: Cycle, acts: seq<Activity>, n: nat)
    requires Fetching(c)
    ensures Fetching(StepsAsWritten(c, acts, n))
    ensures StepsAsWritten(c, acts, n).requests == c.requests + n
    ensures StepsAsWritten(c, acts, n).held.trip.value.id == c.held.trip.value.id
    decreases n
  {
    if n > 0 {
      var d := StepAsWritten(c, acts);
      assert Fetching(d) && d.requests == c.requests + 1;
      AsWrittenNeverSettles(d, acts, n - 1);
    }
  }

  /** A concrete run: trip 1 selected, its one activity costs 500; three runs
      send three requests and a fourth is still due. */
  lemma AsWrittenExample()
    ensures var t := Trip(1, "Kandy", "2024-01-01", "2024-01-03", 10000.0, 0.0, None);
            var a := Activity(7, 1, "Temple", None, Some(500.0), Some("2024-01-01"), None, None);
            var c := StepsAsWritten(Cycle(Held(Some(t), 1), 0, 0), [a], 3);
            c.requests == 3 && EffectDue(c)
  {
  }

  /** Corrected, the effect settles after at most two runs, and stays settled. */
  lemma {:induction false} CorrectedSettles(c: Cycle, acts: seq<Activity>, n: nat)
    requires Fetching(c)
    requires n >= 2
    ensures !EffectDue(Steps(c, acts, n))
    ensures Steps(c, acts, n).requests <= c.requests + 2
    decreases n
  {
    var d := Step(c, acts);
    var e := Step(d, acts);
    assert d.held.trip.value.spent == CostSum(acts);
    assert !EffectDue(e);
    StaysSettled(e, acts, n - 2);
    assert Steps(c, acts, n) == Steps(e, acts, n - 2) by {
      assert Steps(c, acts, n) == Steps(d, acts, n - 1);
    }
  }

  lemma {:induction false} StaysSettled(c: Cycle, acts: seq<Activity>, n: nat)
    requires !EffectDue(c)
    ensures Steps(c, acts, n) == c
    decreases n
  {
    if n > 0 {
      StaysSettled(c, acts, n - 1);
    }
  }

  /** The correction changes no value: after any run both versions hold the same
      selected trip, the one the value model of the page computes. */
  lemma CorrectionAgreesOnValues(c: Cycle, acts: seq<Activity>, v: View)
    requires Fetching(c) && v.selected == c.held.trip
    ensures Step(c, acts).held.trip == StepAsWritten(c, acts).held.trip
    ensures Step(c, acts).held.trip == ActivitiesLoaded(v, c.held.trip.value.id, Ok(Some(acts))).selected
  {
  }
}

=== FILE: scenarios.dfy ===
/** Worked examples: the grouping and total of a small activity list, and the
    metrics of an over-spent trip. */
module Scenarios {
  import opened Records
  import opened Spend
  import opened Store
  import opened Grouping
  import opened Budget

  /** Two activities on one day and one without a date: two groups, in that
      order, and a total of 2300. */
  lemma ThreeActivities()
    ensures var a1 := Activity(1, 1, "Hike", None, Some(500.0), Some("2024-01-01"), None, None);
            var a2 := Activity(2, 1, "Dinner", None, Some(1500.0), Some("2024-01-01"), None, None);
            var a3 := Activity(3, 1, "Souvenirs", None, Some(300.0), None, None, None);
            var g := GroupOf([a1, a2, a3]);
            && g.keys == ["2024-01-01", NoDate]
            && g.groups["2024-01-01"] == [a1, a2]
            && g.groups[NoDate] == [a3]
            && CostSum([a1, a2, a3]) == 2300.0
  {
    var a1 := Activity(1, 1, "Hike", None, Some(500.0), Some("2024-01-01"), None, None);
    var a2 := Activity(2, 1, "Dinner", None, Some(1500.0), Some("2024-01-01"), None, None);
    var a3 := Activity(3, 1, "Souvenirs", None, Some(300.0), None, None, None);
    var day := "2024-01-01";
    assert day != NoDate by { assert day[0] != NoDate[0]; }
    assert DateKey(a1) == day && DateKey(a2) == day && DateKey(a3) == NoDate;
    assert [a1][..0] == [];
    assert GroupOf([a1]) == Grouped([day], map[day := [a1]]);
    assert [a1, a2][..1] == [a1];
    assert [a1] + [a2] == [a1, a2];
    assert GroupOf([a1, a2]) == Grouped([day], map[day := [a1, a2]]);
    assert [a1, a2, a3][..2] == [a1, a2];
    assert GroupOf([a1, a2, a3]) == Grouped([day, NoDate], map[day := [a1, a2], NoDate := [a3]]);
    assert [a1, a2, a3][1..] == [a2, a3];
    assert [a2, a3][1..] == [a3];
    assert [a3][1..] == [];
    assert CostSum([a3]) == 300.0;
    assert CostSum([a2, a3]) == 1800.0;
  }

  /** A budget of 10000 reconciled with a spend of 12000: 2000 over, bar capped at 100. */
  lemma OverSpentTrip()
    ensures var t := Trip(1, "Ella", "2024-02-01", "2024-02-05", 10000.0, 0.0, None);
            var m := MetricsOf(PatchSelected(Some(t), 1, 12000.0));
            m.remaining == -2000.0 && m.percentage == 100.0
  {
  }
}

=== FILE: spend.dfy ===
/** Spend aggregation: the total cost of a trip's activities. */
module Spend {
  import opened Records

  /** An activity's cost, with a missing cost counted as 0. */
  function CostOf(a: Activity): (c: real)
    ensures a.cost.None? ==> c == 0.0
    ensures a.cost.Some? ==> c == a.cost.value
  {
    match a.cost
    case Some(x) => x
    case None => 0.0
  }

  /** Reference definition: the sum of the activities' costs. */
  function CostSum(acts: seq<Activity>): real {
    if |acts| == 0 then 0.0 else CostOf(acts[0]) + CostSum(acts[1..])
  }

  /** The sum over a concatenation is the sum of the sums. */
  lemma {:induction false} CostSumAppend(a: seq<Activity>, b: seq<Activity>)
    ensures CostSum(a + b) == CostSum(a) + CostSum(b)
  {
    if |a| == 0 {
      assert a + b == b;
    } else {
      assert (a + b)[1..] == a[1..] + b;
      CostSumAppend(a[1..], b);
    }
  }

  /** The total is never negative when no cost is negative. */
  lemma {:induction false} CostSumNonNegative(acts: seq<Activity>)
    requires forall i :: 0 <= i < |acts| ==> CostOf(acts[i]) >= 0.0
    ensures CostSum(acts) >= 0.0
  {
    if |acts| > 0 {
      assert forall i :: 0 <= i < |acts[1..]| ==> acts[1..][i] == acts[i + 1];
      CostSumNonNegative(acts[1..]);
    }
  }

  /** The left-to-right reduction the overview page performs over the fetched
      activities, starting from 0 and adding each cost (a missing one as 0). */
  method TotalSpent(acts: seq<Activity>) returns (total: real)
    ensures total == CostSum(acts)
    ensures |acts| == 0 ==> total == 0.0
  {
    total := 0.0;
    var i := 0;
    while i < |acts|
      invariant 0 <= i <= |acts|
      invariant total == CostSum(acts[..i])
    {
      CostSumAppend(acts[..i], [acts[i]]);
      assert acts[..i + 1] == acts[..i] + [acts[i]];
      total := total + CostOf(acts[i]);
      i := i + 1;
    }
    assert acts[..i] == acts;
  }
}

=== FILE: store.dfy ===
/** The trip list and the selected trip: patching a recomputed `spent` into
    both, and removing a deleted trip. */
module Store {
  import opened Records

  /** Replaces `spent` by `total` in every trip whose id is `tripId`. */
  function PatchSpent(trips: seq<Trip>, tripId: int, total: real): (r: seq<Trip>)
    ensures |r| == |trips|
    ensures forall i :: 0 <= i < |r| ==> r[i].id == trips[i].id
    ensures forall i :: 0 <= i < |r| && trips[i].id == tripId ==> r[i] == trips[i].(spent := total)
    ensures forall i :: 0 <= i < |r| && trips[i].id != tripId ==> r[i] == trips[i]
  {
    if |trips| == 0 then []
    else
      var t := trips[0];
      [if t.id == tripId then t.(spent := total) else t] + PatchSpent(trips[1..], tripId, total)
  }

  /** Whether some trip in the list has the given id. */
  predicate HasTrip(trips: seq<Trip>, tripId: int) {
    exists i :: 0 <= i < |trips| && trips[i].id == tripId
  }

  /** Patching only ever touches `spent`: every other field of every trip is kept. */
  lemma PatchSpentKeepsOtherFields(trips: seq<Trip>, tripId: int, total: real)
    ensures forall i :: 0 <= i < |trips| ==>
      PatchSpent(trips, tripId, total)[i].(spent := trips[i].spent) == trips[i]
  {
  }

  /** Applying the same total twice gives the same list as applying it once. */
  lemma PatchSpentIdempotent(trips: seq<Trip>, tripId: int, total: real)
    ensures PatchSpent(PatchSpent(trips, tripId, total), tripId, total) == PatchSpent(trips, tripId, total)
  {
  }

  /** An id that matches no trip leaves the list as it was: no insertion, no error. */
  lemma PatchSpentUnknownId(trips: seq<Trip>, tripId: int, total: real)
    requires !HasTrip(trips, tripId)
    ensures PatchSpent(trips, tripId, total) == trips
  {
  }

  /** The selected trip gets the new total only when it exists and its id is `tripId`. */
  function PatchSelected(sel: Option<Trip>, tripId: int, total: real): (r: Option<Trip>)
    ensures r.Some? <==> sel.Some?
    ensures sel.Some? && sel.value.id == tripId ==> r.value.spent == total
    ensures sel.Some? ==> r.value.(spent := sel.value.spent) == sel.value
    ensures sel.None? || sel.value.id != tripId ==> r == sel
  {
    match sel
    case Some(t) => if t.id == tripId then Some(t.(spent := total)) else sel
    case None => None
  }

  /** If the selection is a snapshot of list entry `k`, it is still a snapshot of
      entry `k` after both are patched with the same total. */
  lemma PatchKeepsSelectionInSync(trips: seq<Trip>, k: int, tripId: int, total: real)
    requires 0 <= k < |trips|
    ensures PatchSelected(Some(trips[k]), tripId, total) == Some(PatchSpent(trips, tripId, total)[k])
  {
  }

  /** The selection patch is idempotent too. */
  lemma PatchSelectedIdempotent(sel: Option<Trip>, tripId: int, total: real)
    ensures PatchSelected(PatchSelected(sel, tripId, total), tripId, total) == PatchSelected(sel, tripId, total)
  {
  }

  /** No two trips in the list share an id. */
  predicate UniqueIds(trips: seq<Trip>) {
    forall i, j :: 0 <= i < j < |trips| ==> trips[i].id != trips[j].id
  }

  /** Patching keeps the ids, so it keeps them unique. */
  lemma PatchSpentKeepsUniqueIds(trips: seq<Trip>, tripId: int, total: real)
    requires UniqueIds(trips)
    ensures UniqueIds(PatchSpent(trips, tripId, total))
  {
  }

  /** `trips.filter(trip => trip.id !== tripId)`. */
  function RemoveTrip(trips: seq<Trip>, tripId: int): (r: seq<Trip>)
    ensures |r| <= |trips|
    ensures forall t :: t in r ==> t in trips && t.id != tripId
    ensures forall t :: t in trips && t.id != tripId ==> t in r
  {
    if |trips| == 0 then []
    else if trips[0].id == tripId then RemoveTrip(trips[1..], tripId)
    else [trips[0]] + RemoveTrip(trips[1..], tripId)
  }

  /** Removal keeps the survivors in their original order: it distributes over concatenation. */
  lemma {:induction false} RemoveTripAppend(a: seq<Trip>, b: seq<Trip>, tripId: int)
    ensures RemoveTrip(a + b, tripId) == RemoveTrip(a, tripId) + RemoveTrip(b, tripId)
  {
    if |a| == 0 {
      assert a + b == b;
    } else {
      assert (a + b)[1..] == a[1..] + b;
      RemoveTripAppend(a[1..], b, tripId);
    }
  }

  /** Removing an id no trip has leaves the list unchanged. */
  lemma {:induction false} RemoveUnknownTrip(trips: seq<Trip>, tripId: int)
    requires !HasTrip(trips, tripId)
    ensures RemoveTrip(trips, tripId) == trips
  {
    if |trips| > 0 {
      assert trips[0].id != tripId;
      assert !HasTrip(trips[1..], tripId) by {
        forall i | 0 <= i < |trips[1..]| ensures trips[1..][i].id != tripId {
          assert trips[1..][i] == trips[i + 1];
        }
      }
      RemoveUnknownTrip(trips[1..], tripId);
    }
  }

  /** With unique ids, deleting an existing trip removes exactly one entry. */
  lemma {:induction false} RemoveExistingTrip(trips: seq<Trip>, tripId: int)
    requires UniqueIds(trips) && HasTrip(trips, tripId)
    ensures |RemoveTrip(trips, tripId)| == |trips| - 1
  {
    var rest := trips[1..];
    assert UniqueIds(rest) by {
      forall i, j | 0 <= i < j < |rest| ensures rest[i].id != rest[j].id {
        assert rest[i] == trips[i + 1] && rest[j] == trips[j + 1];
      }
    }
    if trips[0].id == tripId {
      assert !HasTrip(rest, tripId) by {
        forall i | 0 <= i < |rest| ensures rest[i].id != tripId {
          assert rest[i] == trips[i + 1];
        }
      }
      RemoveUnknownTrip(rest, tripId);
    } else {
      var k :| 0 <= k < |trips| && trips[k].id == tripId;
      assert rest[k - 1].id == tripId;
      RemoveExistingTrip(rest, tripId);
    }
  }

  /** Removal keeps unique ids unique: the survivors are a subsequence. */
  lemma {:induction false} RemoveTripKeepsUniqueIds(trips: seq<Trip>, tripId: int)
    requires UniqueIds(trips)
    ensures UniqueIds(RemoveTrip(trips, tripId))
  {
    if |trips| > 0 {
      var rest := trips[1..];
      assert UniqueIds(rest) by {
        forall i, j | 0 <= i < j < |rest| ensures rest[i].id != rest[j].id {
          assert rest[i] == trips[i + 1] && rest[j] == trips[j + 1];
        }
      }
      RemoveTripKeepsUniqueIds(rest, tripId);
      if trips[0].id != tripId {
        var r := RemoveTrip(rest, tripId);
        forall t | t in r ensures t.id != trips[0].id {
          var k :| 0 <= k < |rest| && rest[k] == t;
          assert trips[k + 1] == t;
        }
        assert RemoveTrip(trips, tripId) == [trips[0]] + r;
      }
    }
  }

  /** Two deletions give the same list in either order. */
  lemma {:induction false} RemoveTripCommutes(trips: seq<Trip>, a: int, b: int)
    ensures RemoveTrip(RemoveTrip(trips, a), b) == RemoveTrip(RemoveTrip(trips, b), a)
  {
    if |trips| > 0 {
      RemoveTripCommutes(trips[1..], a, b);
      var rest := trips[1..];
      if trips[0].id != a {
        assert ([trips[0]] + RemoveTrip(rest, a))[1..] == RemoveTrip(rest, a);
      }
      if trips[0].id != b {
        assert ([trips[0]] + RemoveTrip(rest, b))[1..] == RemoveTrip(rest, b);
      }
    }
  }

  /** A spend total that arrives after its trip was deleted changes nothing. */
  lemma PatchAfterRemoveIsNoOp(trips: seq<Trip>, tripId: int, total: real)
    ensures PatchSpent(RemoveTrip(trips, tripId), tripId, total) == RemoveTrip(trips, tripId)
  {
  }
}
